=== FILE: README.md ===
# Streaming directory walk: a Dafny model of its per-entry logic

This project models the core of `crates/core/src/walkdir.rs` from the ferri
workspace: `walk_dir_stream`, its `walk_dir` drain wrapper, and their types
`WalkDecision`, `CbResult`, `WalkOptions` and `WalkEntry`.

The walk connects a multithreaded scanner (the producer) to one async
consumer through two bounded queues. The model drops the threads and the
queues' blocking. What remains is sequential logic:

- **Options** (`options.dfy`). A `max_concurrency` of 0 becomes 1. A depth of
  `usize::MAX` means no depth bound. The scanner's thread count and the two
  queue capacities are derived from these options. `usize` is a 64-bit newtype.
- **Sequences** (`sequences.dfy`). Subsequences, used to state that the
  queue and the callback keep scan order and never repeat a scanned path.
- **Builder** (`builder.dfy`). The filter setters the walk applies to the
  scanner's builder, in call order. Of the filter setters,
  `standard_filters(true)` comes last, and it switches hidden filtering back
  on after `hidden(!include_hidden)`; `max_depth` and `threads` follow and
  touch no filter (they become `ScanConfig.maxDepth` and `ScanConfig.threads`).
  See "## Findings".
- **Paths** (`paths.dfy`). A path is a sequence of components.
  `Path::starts_with` is sequence-prefix, so `/a/bc` does not start with
  `/a/b`. `strip_prefix` returns the remaining components or fails. The linear
  `any` scan over the pruned set is the method `AnyPrefix`.
- **Decisions** (`decisions.dfy`). `WalkDecision`, `CbResult` and its four
  constructors.
- **Producer** (`producer.dfy`). The visitor closure is a pure function of:
  - the abort flag as this worker reads it;
  - the scanner's item (an entry or a per-entry error);
  - the pruned set as this worker reads it;
  - the root;
  - whether `blocking_send` succeeded.

  The worker pool's calls, taken in any interleaving and each with its own
  stale snapshot, fill the path queue (`Enqueued`).
- **Consumer** (`consumer.dfy`, `consumer_props.dfy`). The loop is a fold of
  `Step` over the dequeued paths. Its state holds:
  - the pruned set and the abort flag;
  - the entries shown to the callback;
  - the items sent to the output queue;
  - a phase: running, or stopped with a reason.

  Three oracles stand in for the environment:
  - The callback. Its answer may depend on every entry it was shown before,
    as a stateful `FnMut` closure's may.
  - `symlink_metadata(..).is_dir()`, which answers error, directory or not a
    directory.
  - Whether the output queue still accepts the next item.
- **Walk** (`walk.dfy`). This composes everything:
  - root resolution (the canonical path, or the given path when
    `canonicalize` fails);
  - the plan, the producer's queue and the consumer's run;
  - `walk_dir`, which reads the output stream until the first error.

The metadata lookup does not follow symbolic links. A `SkipDescend` on a
symbolic link to a directory therefore reads "not a directory" and prunes
nothing. This holds even though the scanner is configured to follow links.
`ConsumerProps.StepPrune` states this rule: the set grows exactly when the
lookup says directory.

## Model

| member | source | states |
|---|---|---|
| Options.Normalize | crates/core/src/walkdir.rs:133-135 | the coerced concurrency is at least 1: a value of 0 becomes exactly 1, any other value and every other option is unchanged |
| Options.NormalizeIdempotent | crates/core/src/walkdir.rs:133-135 | coercing an already coerced set of options changes nothing |
| Options.ZeroConcurrencyIsOne | crates/core/src/walkdir.rs:133-153 | a walk configured with concurrency 0 is set up identically to one configured with 1 |
| Options.MaxDepth | crates/core/src/walkdir.rs:141-145 | the scanner's depth bound is absent exactly when the depth option is `usize::MAX`, and is that depth otherwise |
| Options.Threads | crates/core/src/walkdir.rs:146-150 | the scanner uses the concurrency as its thread count when parallel recursion is on, and one thread otherwise |
| Options.Capacity | crates/core/src/walkdir.rs:152-153 | a queue capacity is the concurrency times its factor, defined exactly when the product fits in a `usize` |
| Options.PlanDefinedIff | crates/core/src/walkdir.rs:152-153 | set-up succeeds exactly when sixteen times the coerced concurrency fits in a `usize` |
| Options.PlanSpec | crates/core/src/walkdir.rs:133-153 | the whole derived plan relates to the options: concurrency at least 1, the depth mapping in both directions, the filters of the setter chain as written (hidden entries always skipped), at least one thread, queues of 4x and 16x the concurrency, both positive |
| Options.Plan | crates/core/src/walkdir.rs:133-153 | set-up succeeds exactly when sixteen times the coerced concurrency fits in a `usize`, and every plan has at least one worker thread, queues of at least 4 and 16 slots, and hidden entries filtered out |
| Options.DefaultPlan | crates/core/src/walkdir.rs:74-83 | the defaults give unbounded depth, ask for hidden entries (which the configured scanner still skips), run parallel with 8 threads, and have queues of 32 and 128 |
| Builder.ConfigureAsWritten | crates/core/src/walkdir.rs:169-179 | after the walk's filter setters in call order, every standard filter is on, hidden filtering included, and links are followed, whatever `include_hidden` says |
| Builder.ConfigureIntended | crates/core/src/walkdir.rs:176-177 | with `standard_filters` moved before `hidden`, hidden filtering is on exactly when `include_hidden` is false, and the other filters and link following are on |
| Builder.HiddenAlwaysSkipped | crates/core/src/walkdir.rs:169-179 | after the setter chain, hidden entries are skipped whatever `include_hidden` says, the builder is the same for both values, every other standard filter is on and links are followed |
| Builder.IncludeHiddenHasNoEffect | crates/core/src/walkdir.rs:176-177 | with hidden entries asked for, as in the defaults, the configured builder still skips them, and differs from the intended one |
| Builder.IntendedHonoursIncludeHidden | crates/core/src/walkdir.rs:176-177 | with `standard_filters` called before `hidden`, hidden entries are skipped exactly when they are not to be included, and every other switch is as written |
| Decisions.ConstructorsSpec | crates/core/src/walkdir.rs:34-58 | `cont`, `skip` and `abort` are the output-less results with decisions Continue, SkipDescend and Abort; a result is some `emit(x)` exactly when it is Continue with an output |
| Paths.StripPrefix | crates/core/src/walkdir.rs:243 | stripping succeeds exactly when the root is a component prefix of the path, and the root followed by the remainder is the path |
| Paths.StripAfterJoin | crates/core/src/walkdir.rs:243 | stripping the prefix from prefix-joined-with-relative gives back the relative path |
| Paths.RelPathSpec | crates/core/src/walkdir.rs:243 | the relative path is the absolute path without the root's components when the root is a component prefix, and the absolute path unchanged otherwise |
| Paths.RelPathOfChild | crates/core/src/walkdir.rs:243 | an immediate child of the root has a one-component relative path |
| Paths.ComponentMismatch | crates/core/src/walkdir.rs:202 | a path that agrees with a prefix candidate up to the candidate's last component and differs there does not start with it, whatever the textual relation of the two differing components |
| Paths.ComponentWiseNotTextual | crates/core/src/walkdir.rs:202 | prefix matching is per component: `/a/bc` does not start with `/a/b`, while `/a/b/c` does |
| Paths.AnyPrefix | crates/core/src/walkdir.rs:237-238 | the scan over the pruned set reports a match exactly when the path starts with some member |
| Paths.UnderAnyDescendant | crates/core/src/walkdir.rs:238 | a path below a pruned path is itself pruned |
| Paths.UnderAnyMonotone | crates/core/src/walkdir.rs:238 | enlarging the pruned set never un-prunes a path |
| Paths.UnderAnyInsert | crates/core/src/walkdir.rs:254-259 | after inserting a directory, a path is pruned exactly when it was before or it lies under that directory |
| Producer.VisitEntry | crates/core/src/walkdir.rs:189-217 | the visitor quits and sends nothing once abort is seen, and continues without sending on a scan error. A sent path is exactly the entry's path, under no pruned prefix, never the root. An eligible entry is sent with Continue when the send succeeds, and gives Quit without a send when it fails. Quit happens in exactly those two cases |
| Producer.Enqueued | crates/core/src/walkdir.rs:183-217 | over any interleaving of visitor calls and any snapshots, the path queue never holds the root, and it is a subsequence of the scanned non-root paths: scan order kept, nothing queued more often than scanned |
| Producer.EnqueuedAllWhenUndisturbed | crates/core/src/walkdir.rs:189-217 | with no abort, no failed send and nothing pruned, the queue is exactly the non-root scanned paths in scan order |
| Consumer.MakeEntry | crates/core/src/walkdir.rs:243-248 | the callback's entry carries the dequeued path, no metadata, and a relative path that is the path with the root stripped, or the path itself when the root is not its prefix |
| Consumer.PruneOnSkip | crates/core/src/walkdir.rs:254-261 | a skip only adds, at most the skipped path, and the skipped path is in the result exactly when it was already there or the lookup says directory |
| Consumer.Step | crates/core/src/walkdir.rs:230-273 | one iteration only grows the pruned set (by at most the dequeued path), only appends to what was delivered and sent (at most one each), and delivers the entry built from the dequeued path exactly when the abort flag is clear and no pruned prefix covers it. A set abort flag stops the loop with no callback; a pruned path is dropped with no callback and no item |
| Consumer.Run | crates/core/src/walkdir.rs:230-273 | the loop only grows the pruned set, keeps the abort flag once set, only appends to the delivered entries (at most one per dequeued path) and the sent items, and does nothing once stopped |
| ConsumerProps.StepDelivered | crates/core/src/walkdir.rs:250-272 | for a path that reaches the callback: it is appended to what was delivered; on Abort the flag is set, the loop stops and nothing is sent; otherwise an item is sent when the receiver accepts it, a failed send stops the loop with nothing sent, and no item means the loop runs on |
| ConsumerProps.StepPrune | crates/core/src/walkdir.rs:236-261 | the pruned set changes on a step exactly when the path reaches the callback, the answer is SkipDescend and the lookup says directory; it then gains exactly that path, and a lookup error or non-directory leaves it unchanged |
| ConsumerProps.PrunedNeverDelivered | crates/core/src/walkdir.rs:236-241 | no entry delivered while a queue is processed lies under a prefix that was pruned when processing began |
| ConsumerProps.PrunedSubtreeShielded | crates/core/src/walkdir.rs:236-261 | once a directory is in the pruned set, no path below it dequeued afterwards reaches the callback |
| ConsumerProps.NoCallbackAfterAbort | crates/core/src/walkdir.rs:262-265 | after an Abort, processing any further paths changes nothing: no callback, no prune, no item |
| ConsumerProps.AbortIsFinal | crates/core/src/walkdir.rs:262-265 | the entry answered with Abort is the last one delivered, the flag is set, the loop stopped for that reason, and its item is not sent |
| ConsumerProps.EmittedAreOutputs | crates/core/src/walkdir.rs:250-272 | the sent items are exactly the outputs of the delivered non-Abort entries, SkipDescend ones included, wrapped as Ok, in delivery order; only when the receiver is gone is one item missing, namely the last, whose send failed |
| ConsumerProps.DeliveredEntriesWellFormed | crates/core/src/walkdir.rs:243-248 | every entry the callback sees has no metadata and the root-relative path of its absolute path |
| ConsumerProps.DeliveredInQueueOrder | crates/core/src/walkdir.rs:230-250 | the callback sees a subsequence of the dequeued paths, in dequeue order |
| ConsumerProps.DequeueOutcome | crates/core/src/walkdir.rs:230-250 | judged against the state when it was dequeued, a path reaches the callback as the next delivered entry exactly when the loop was running, the abort flag was clear and no prefix pruned so far covers it; otherwise nothing is delivered for it, and a stopped loop does nothing more |
| Walk.RootAbs | crates/core/src/walkdir.rs:137-140 | the root is the canonical path when canonicalisation succeeds, and the given path otherwise |
| Walk.WalkDirStream | crates/core/src/walkdir.rs:123-279 | a walk starts exactly when its plan exists, with that plan and the resolved root; its body fills the path queue with `Producer.Enqueued` and runs `Consumer.Run` over it, and what that composition delivers is stated by `Walk.RootNeverDelivered` and `Walk.WalkDirSucceeds` |
| Walk.RootNeverDelivered | crates/core/src/walkdir.rs:207-211 | whatever the schedule and the snapshots the workers saw, the walk root is never shown to the callback |
| Walk.DeliveredSubseqScanned | crates/core/src/walkdir.rs:189-250 | end to end, the callback sees a subsequence of the scanner's non-root paths: scan order kept, no path shown more often than it was scanned |
| Walk.FirstError | crates/core/src/walkdir.rs:111 | reading a stream fails exactly when it holds an error, and then with the first one |
| Walk.WalkDir | crates/core/src/walkdir.rs:98-113 | `walk_dir` gives an answer exactly when the walk can be set up, and panics at set-up otherwise; the answer itself is stated by `Walk.WalkDirSucceeds` |
| Walk.WalkDirSucceeds | crates/core/src/walkdir.rs:98-113 | a started `walk_dir` always succeeds, because the consumer sends only Ok items |

## Findings

| source | as written | input that shows it | evidently intended | confidence | as-written member | corrected member |
|---|---|---|---|---|---|---|
| crates/core/src/walkdir.rs:176-177 | `.hidden(!opts.include_hidden)` is followed by `.standard_filters(true)`, which sets hidden filtering back on | the default options (`include_hidden = true`): hidden entries are still skipped | `include_hidden` decides hidden filtering, with `standard_filters` called before `hidden` | medium, not executed; rests on the `ignore` crate's definition of `standard_filters` | Builder.IncludeHiddenHasNoEffect | Builder.IntendedHonoursIncludeHidden |

The plan (`Options.Plan`) keeps the builder as written, because that is what
the program hands the scanner. `Builder.ConfigureIntended` is the corrected
chain. Nothing else in the model depends on the hidden switch.

## Left out

- Threads, `spawn_blocking`, `tokio::spawn`, the `mpsc` channels, `ReceiverStream`, and the `RwLock` and relaxed atomic orderings are concurrency. The model has no blocking on a full queue. Each visitor call's view of the shared flag and set is an arbitrary snapshot. The consumer works through its queue in order.
- The prune check at line 202 may miss a recent prune. `VisitCall` snapshots cover this, but nothing bounds how stale a snapshot is. Likewise, the "at most a queue's worth of entries after an abort" bound is not stated.
- The `ignore` crate's `WalkBuilder` is foreign code (lines 169-181). Gitignore rules, hidden-entry filtering, depth enforcement, symlink following and traversal order are not modelled. The model only records the settings the walk's setter chain leaves on the builder (`Builder.ConfigureAsWritten`, kept in `ScanConfig`). That `standard_filters(yes)` sets the six standard filters, hidden included, is how the `ignore` crate defines it; that crate is not part of this model. The scanner's output is an arbitrary sequence of items.
- A depth other than `usize::MAX` is passed to the scanner as `Some(depth)`. What depth 0 delivers is up to the scanner: the doc comment says "list only root", and the root is never delivered. This is not modelled.
- `canonicalize` and `tokio::fs::symlink_metadata` are oracles. The metadata oracle is a fixed function of the path: the filesystem is not modelled as changing during a walk.
- The callback's asynchrony and the per-entry `cb.clone()` in `walk_dir` (lines 103-109) are glue. The callback is a function of the entries it was shown before and the current entry.
- Callback errors: the callback returns a `CbResult`, not a `Result`, and the consumer sends only `Ok` items. So no walk reports an error, and `Walk.WalkDirSucceeds` proves this. Callback-raised errors ending the walk are not modelled, because the code has no such path.
- Options.Capacity: a product that overflows `usize` is modelled as the panic of a checked build, which stops the walk before it starts. The wrap-around of a release build is not modelled. Nor is the channel's own upper limit on its buffer size, which is enforced inside tokio.
- Options.PlanDefinedIff: "exactly when sixteen times the concurrency fits in a `usize`" holds under the checked-overflow reading above. Tokio's channel also panics for buffers above `usize::MAX >> 3`, and that limit is not modelled, so real set-up fails for more inputs than the model says.
- Options.Plan: the same tokio buffer limit is left out of its "succeeds exactly when" clause.
- Walk.WalkDirStream: always returns `Ok` in the code. Its only failure in the model is the set-up panic of a capacity overflow; the tokio buffer limit above is not modelled.
- The consumer's check of the abort flag at line 231 is modelled. It is unreachable within one walk, because only the consumer sets the flag and it stops straight after. `ConsumerProps.RunReachable` keeps the phase away from that stop reason.
- `logger.rs`, `config.rs`, `db.rs`, `util.rs` and the two `main.rs` entry points are tracing set-up, configuration and database I/O, and process entry. They are not part of this model.

=== FILE: builder.dfy ===
/**
  The filter switches of the ignore-aware scanner's builder, and the chain of
  setter calls the walk makes on it. `standard_filters(yes)` sets the hidden,
  parents, ignore, git-ignore, git-global and git-exclude switches together,
  so its position in the chain decides which hidden-entry setting wins.
 */
module Builder {

  /** The builder's filter switches; `true` means the filter is applied. */
  datatype Filters = Filters(
    hidden: bool,        // skip hidden entries
    parents: bool,       // read ignore files of parent directories
    ignore: bool,        // honour `.ignore` files
    gitIgnore: bool,     // honour `.gitignore` files
    gitGlobal: bool,     // honour the global git excludes
    gitExclude: bool,    // honour `.git/info/exclude`
    followLinks: bool)   // descend into symbolic links

  /** A fresh builder: every standard filter on, symbolic links not followed. */
  function NewFilters(): Filters {
    Filters(true, true, true, true, true, true, false)
  }

  /** `standard_filters(yes)`: the six standard filters switched together. */
  function StandardFilters(f: Filters, yes: bool): Filters {
    f.(hidden := yes, parents := yes, ignore := yes, gitIgnore := yes, gitGlobal := yes, gitExclude := yes)
  }

  /**
    The filter setters of the walk's chain, in call order: git-ignore,
    git-global, git-exclude, parents and link following on, then
    `hidden(!include_hidden)`, then `standard_filters(true)`. The chain's
    `max_depth` and `threads` calls come after and touch no filter.
   */
  function ConfigureAsWritten(includeHidden: bool): (f: Filters)
    ensures f.hidden && f.parents && f.ignore && f.gitIgnore && f.gitGlobal && f.gitExclude
    ensures f.followLinks
  {
    var f := NewFilters().(gitIgnore := true, gitGlobal := true, gitExclude := true, parents := true);
    var f := f.(followLinks := true);
    var f := f.(hidden := !includeHidden);
    StandardFilters(f, true)
  }

  /** The same chain with `standard_filters(true)` before `hidden(!include_hidden)`. */
  function ConfigureIntended(includeHidden: bool): (f: Filters)
    ensures f.hidden <==> !includeHidden
    ensures f.parents && f.ignore && f.gitIgnore && f.gitGlobal && f.gitExclude && f.followLinks
  {
    var f := NewFilters().(gitIgnore := true, gitGlobal := true, gitExclude := true, parents := true);
    var f := f.(followLinks := true);
    var f := StandardFilters(f, true);
    f.(hidden := !includeHidden)
  }

  /**
    As written, the last call switches hidden filtering back on: hidden
    entries are skipped whatever `include_hidden` says, and every other
    standard filter is on and links are followed.
   */
  lemma HiddenAlwaysSkipped(includeHidden: bool)
    ensures ConfigureAsWritten(includeHidden).hidden
    ensures ConfigureAsWritten(includeHidden) == ConfigureAsWritten(!includeHidden)
    ensures var f := ConfigureAsWritten(includeHidden);
      f.parents && f.ignore && f.gitIgnore && f.gitGlobal && f.gitExclude && f.followLinks
  {
  }

  /** The default options ask for hidden entries, and the configured builder still skips them. */
  lemma IncludeHiddenHasNoEffect()
    ensures ConfigureAsWritten(true).hidden
    ensures ConfigureAsWritten(true) != ConfigureIntended(true)
  {
  }

  /**
    With `standard_filters` first, hidden entries are skipped exactly when
    they are not to be included, and every other switch is as written.
   */
  lemma IntendedHonoursIncludeHidden(includeHidden: bool)
    ensures ConfigureIntended(includeHidden).hidden <==> !includeHidden
    ensures ConfigureIntended(includeHidden) == ConfigureAsWritten(includeHidden).(hidden := !includeHidden)
  {
  }
}

=== FILE: consumer.dfy ===
/**
  The single consumer task: it takes paths off the path queue one at a time,
  drops pruned ones, hands the rest to the callback, applies the decision and
  forwards any emitted item to the output queue.

  The consumer's surroundings become oracles: the callback (whose answer may
  depend on every entry it was shown before, as a stateful closure's may), the
  symlink-aware metadata lookup, and whether the output queue's receiver still
  accepts the next item.
 */
module Consumer {
  import opened Wrappers
  import opened Paths
  import opened Decisions

  /** What the metadata lookup says about a path. */
  datatype MetaLookup = MetaError | Dir | NotDir

  /** File metadata as the callback may see it; the walker itself never fills it in. */
  datatype Metadata = Metadata(isDir: bool)

  /** `WalkEntry`: the absolute path, the root-relative path and optional metadata. */
  datatype WalkEntry = WalkEntry(absPath: Path, relPath: Path, metadata: Option<Metadata>)

  /** The crate's error type; the walker never sends one on the output queue. */
  datatype WalkError = WalkError(message: string)

  /** Why the consumer loop ended before its input ran out. */
  datatype StopReason =
    | AbortObserved   // the shared abort flag was already set
    | AbortDecided    // the callback returned `Abort`
    | ReceiverClosed  // the caller dropped the output stream

  datatype Phase = Running | Stopped(reason: StopReason)

  /** The consumer's world: the root and the three oracles. */
  datatype Env<T> = Env(
    root: Path,
    callback: (seq<WalkEntry>, WalkEntry) -> CbResult<T>,  // earlier entries, this entry
    metadata: Path -> MetaLookup,
    sendOk: nat -> bool)                                    // indexed by items already sent

  /**
    The consumer's state: the shared pruned set and abort flag, the entries
    shown to the callback so far, the items sent to the output queue, and
    whether the loop is still running.
   */
  datatype State<T> = State(
    pruned: set<Path>,
    abort: bool,
    delivered: seq<WalkEntry>,
    emitted: seq<Result<T, WalkError>>,
    phase: Phase)

  /** A fresh walk: nothing pruned, no abort, nothing delivered or sent. */
  function Init<T>(): State<T> {
    State({}, false, [], [], Running)
  }

  /** The entry built for the callback: metadata left unset, path made relative to the root. */
  function MakeEntry(root: Path, abs: Path): (e: WalkEntry)
    ensures e.absPath == abs && e.metadata.None?
    ensures StartsWith(abs, root) ==> root + e.relPath == abs
    ensures !StartsWith(abs, root) ==> e.relPath == abs
  {
    WalkEntry(abs, RelPath(abs, root), None)
  }

  /** The pruned set after a `SkipDescend` on `abs`: it gains `abs` only when the lookup says directory. */
  function PruneOnSkip(pruned: set<Path>, abs: Path, m: MetaLookup): (r: set<Path>)
    ensures pruned <= r && r - pruned <= {abs}
    ensures abs in r <==> abs in pruned || m == Dir
  {
    if m == Dir then pruned + {abs} else pruned
  }

  /** What the callback answered for the `i`-th delivered entry. */
  function ResultAt<T>(env: Env<T>, d: seq<WalkEntry>, i: nat): CbResult<T>
    requires i < |d|
  {
    env.callback(d[..i], d[i])
  }

  /** One iteration of the consumer loop on the dequeued path `abs`. */
  function Step<T>(env: Env<T>, s: State<T>, abs: Path): (s': State<T>)
    requires s.phase == Running
    ensures s.pruned <= s'.pruned && s'.pruned - s.pruned <= {abs}
    ensures s.abort ==> s'.abort
    ensures s.delivered <= s'.delivered && |s'.delivered| <= |s.delivered| + 1
    ensures |s'.delivered| > |s.delivered| ==> s'.delivered[|s.delivered|] == MakeEntry(env.root, abs)
    ensures !s.abort && !UnderAny(abs, s.pruned) ==> s'.delivered == s.delivered + [MakeEntry(env.root, abs)]
    ensures s.emitted <= s'.emitted && |s'.emitted| <= |s.emitted| + 1
    ensures s.abort ==> s'.delivered == s.delivered && s'.phase == Stopped(AbortObserved)
    ensures UnderAny(abs, s.pruned) ==> s'.delivered == s.delivered && s'.emitted == s.emitted
  {
    if s.abort then s.(phase := Stopped(AbortObserved))
    else if UnderAny(abs, s.pruned) then s
    else
      var e := MakeEntry(env.root, abs);
      var r := env.callback(s.delivered, e);
      var s1 := s.(delivered := s.delivered + [e]);
      match r.decision
      case Abort => s1.(abort := true, phase := Stopped(AbortDecided))
      case _ =>
        var s2 := if r.decision == SkipDescend
                  then s1.(pruned := PruneOnSkip(s.pruned, abs, env.metadata(abs)))
                  else s1;
        match r.output
        case None => s2
        case Some(item) =>
          if env.sendOk(|s.emitted|) then s2.(emitted := s.emitted + [Ok(item)])
          else s2.(phase := Stopped(ReceiverClosed))
  }

  /** The consumer loop over the paths it dequeues, until the queue runs out or the loop stops. */
  function Run<T>(env: Env<T>, s: State<T>, queue: seq<Path>): (s': State<T>)
    ensures s.pruned <= s'.pruned
    ensures s.abort ==> s'.abort
    ensures s.delivered <= s'.delivered && |s'.delivered| <= |s.delivered| + |queue|
    ensures s.emitted <= s'.emitted
    ensures s.phase != Running ==> s' == s
    decreases |queue|
  {
    if |queue| == 0 || s.phase != Running then s
    else Run(env, Step(env, s, queue[0]), queue[1..])
  }
}

=== FILE: consumer_props.dfy ===
/**
  Properties of the consumer loop: the pruned set only grows and shields its
  subtrees from the callback, nothing runs after an abort, and the output
  queue receives exactly the callback's items in dequeue order.
 */
module ConsumerProps {
  import opened Wrappers
  import opened Paths
  import opened Decisions
  import opened Consumer
  import opened Sequences

  /** The absolute paths of a sequence of entries. */
  function AbsPaths(d: seq<WalkEntry>): seq<Path> {
    seq(|d|, i requires 0 <= i < |d| => d[i].absPath)
  }

  /** Items wrapped as successful stream results. */
  function Oks<T>(xs: seq<T>): seq<Result<T, WalkError>> {
    seq(|xs|, i requires 0 <= i < |xs| => Ok(xs[i]))
  }

  /**
    Reference definition of what should reach the output queue: the item of
    every delivered entry whose decision was not `Abort`, in delivery order.
   */
  function Outputs<T>(env: Env<T>, d: seq<WalkEntry>): seq<T>
    decreases |d|
  {
    if |d| == 0 then []
    else
      var k := |d| - 1;
      var r := ResultAt(env, d, k);
      Outputs(env, d[..k]) + (if r.decision != Abort && r.output.Some? then [r.output.value] else [])
  }

  /** Whether the output was sent successfully, given how the loop ended. */
  ghost predicate EmittedMatches<T>(env: Env<T>, s: State<T>) {
    var outs := Outputs(env, s.delivered);
    if s.phase == Stopped(ReceiverClosed)
    then |outs| == |s.emitted| + 1 && s.emitted == Oks(outs[..|s.emitted|])
    else s.emitted == Oks(outs)
  }

  /** Every delivered entry is the one the consumer builds for its path. */
  ghost predicate EntriesBuilt<T>(env: Env<T>, d: seq<WalkEntry>) {
    forall i :: 0 <= i < |d| ==> d[i] == MakeEntry(env.root, d[i].absPath)
  }

  /** How the loop's phase and abort flag follow from the callback's answers. */
  ghost predicate PhaseMatches<T>(env: Env<T>, s: State<T>) {
    var d := s.delivered;
    && (forall i :: 0 <= i < |d| - 1 ==> ResultAt(env, d, i).decision != Abort)
    && (s.abort <==> s.phase == Stopped(AbortDecided))
    && s.phase != Stopped(AbortObserved)
    && (|d| > 0 ==> (ResultAt(env, d, |d| - 1).decision == Abort <==> s.abort))
    && (s.phase == Stopped(ReceiverClosed) ==>
          |d| > 0 && ResultAt(env, d, |d| - 1).decision != Abort && ResultAt(env, d, |d| - 1).output.Some?)
  }

  /** The invariant of every state the consumer reaches from `Init`. */
  ghost predicate Reachable<T>(env: Env<T>, s: State<T>) {
    EntriesBuilt(env, s.delivered) && PhaseMatches(env, s) && EmittedMatches(env, s)
  }

  lemma InitReachable<T>(env: Env<T>)
    ensures Reachable(env, Init<T>())
  {
  }

  /** Appending an entry leaves the earlier callback answers as they were. */
  lemma ResultAtAppend<T>(env: Env<T>, d: seq<WalkEntry>, e: WalkEntry)
    ensures forall i :: 0 <= i < |d| ==> ResultAt(env, d + [e], i) == ResultAt(env, d, i)
    ensures ResultAt(env, d + [e], |d|) == env.callback(d, e)
    ensures Outputs(env, d + [e]) == Outputs(env, d)
      + (var r := env.callback(d, e); if r.decision != Abort && r.output.Some? then [r.output.value] else [])
  {
    var d' := d + [e];
    assert d'[..|d|] == d;
    forall i | 0 <= i < |d|
      ensures ResultAt(env, d', i) == ResultAt(env, d, i)
    {
      assert d'[..i] == d[..i];
    }
  }

  lemma OksAppend<T>(xs: seq<T>, x: T)
    ensures Oks(xs + [x]) == Oks(xs) + [Ok(x)]
  {
  }

  /**
    What a step does to a running state whose path reaches the callback: the
    entry is appended, and the callback's answer decides the rest.
   */
  lemma StepDelivered<T>(env: Env<T>, s: State<T>, abs: Path)
    requires s.phase == Running && !s.abort && !UnderAny(abs, s.pruned)
    ensures var s' := Step(env, s, abs);
      var e := MakeEntry(env.root, abs);
      var r := env.callback(s.delivered, e);
      && s'.delivered == s.delivered + [e]
      && (r.decision == Abort ==> s'.abort && s'.phase == Stopped(AbortDecided) && s'.emitted == s.emitted)
      && (r.decision != Abort && r.output.None? ==> !s'.abort && s'.phase == Running && s'.emitted == s.emitted)
      && (r.decision != Abort && r.output.Some? && env.sendOk(|s.emitted|) ==>
            !s'.abort && s'.phase == Running && s'.emitted == s.emitted + [Ok(r.output.value)])
      && (r.decision != Abort && r.output.Some? && !env.sendOk(|s.emitted|) ==>
            !s'.abort && s'.phase == Stopped(ReceiverClosed) && s'.emitted == s.emitted)
  {
  }

  lemma StepEntriesBuilt<T>(env: Env<T>, s: State<T>, abs: Path)
    requires EntriesBuilt(env, s.delivered) && s.phase == Running
    ensures EntriesBuilt(env, Step(env, s, abs).delivered)
  {
  }

  lemma StepPhaseMatches<T>(env: Env<T>, s: State<T>, abs: Path)
    requires PhaseMatches(env, s) && s.phase == Running
    ensures PhaseMatches(env, Step(env, s, abs))
  {
    if !s.abort && !UnderAny(abs, s.pruned) {
      StepDelivered(env, s, abs);
      ResultAtAppend(env, s.delivered, MakeEntry(env.root, abs));
    }
  }

  lemma StepEmittedMatches<T>(env: Env<T>, s: State<T>, abs: Path)
    requires EmittedMatches(env, s) && s.phase == Running
    ensures EmittedMatches(env, Step(env, s, abs))
  {
    if !s.abort && !UnderAny(abs, s.pruned) {
      var e := MakeEntry(env.root, abs);
      StepDelivered(env, s, abs);
      ResultAtAppend(env, s.delivered, e);
      var r := env.callback(s.delivered, e);
      var outs := Outputs(env, s.delivered);
      if r.decision != Abort && r.output.Some? {
        OksAppend(outs, r.output.value);
        assert (outs + [r.output.value])[..|s.emitted|] == outs;
      }
    }
  }

  /** One step keeps the invariant. */
  lemma StepReachable<T>(env: Env<T>, s: State<T>, abs: Path)
    requires Reachable(env, s) && s.phase == Running
    ensures Reachable(env, Step(env, s, abs))
  {
    StepEntriesBuilt(env, s, abs);
    StepPhaseMatches(env, s, abs);
    StepEmittedMatches(env, s, abs);
  }

  /** The whole loop keeps the invariant. */
  lemma {:induction false} RunReachable<T>(env: Env<T>, s: State<T>, queue: seq<Path>)
    requires Reachable(env, s)
    ensures Reachable(env, Run(env, s, queue))
    decreases |queue|
  {
    if |queue| > 0 && s.phase == Running {
      StepReachable(env, s, queue[0]);
      RunReachable(env, Step(env, s, queue[0]), queue[1..]);
    }
  }

  /** Processing a queue in two parts is processing it at once. */
  lemma {:induction false} RunSplit<T>(env: Env<T>, s: State<T>, q1: seq<Path>, q2: seq<Path>)
    ensures Run(env, s, q1 + q2) == Run(env, Run(env, s, q1), q2)
    decreases |q1|
  {
    if |q1| > 0 && s.phase == Running {
      assert (q1 + q2)[1..] == q1[1..] + q2;
      RunSplit(env, Step(env, s, q1[0]), q1[1..], q2);
    } else if |q1| == 0 {
      assert q1 + q2 == q2;
    }
  }

  /**
    The pruned set changes on a step exactly when the entry reaches the
    callback, the callback answers `SkipDescend` and the lookup says
    directory; it then gains exactly the entry's path.
   */
  lemma StepPrune<T>(env: Env<T>, s: State<T>, abs: Path)
    requires s.phase == Running
    ensures var s' := Step(env, s, abs);
      var reached := !s.abort && !UnderAny(abs, s.pruned);
      var decision := env.callback(s.delivered, MakeEntry(env.root, abs)).decision;
      && (s'.pruned != s.pruned <==> reached && decision == SkipDescend && env.metadata(abs) == Dir)
      && (s'.pruned != s.pruned ==> s'.pruned == s.pruned + {abs})
  {
    if !s.abort && !UnderAny(abs, s.pruned) {
      assert abs !in s.pruned by {
        if abs in s.pruned {
          assert StartsWith(abs, abs);
        }
      }
    }
  }

  /**
    No entry delivered while a queue is processed lies under a prefix that
    was pruned when processing began.
   */
  lemma {:induction false} PrunedNeverDelivered<T>(env: Env<T>, s: State<T>, queue: seq<Path>, i: nat)
    requires |s.delivered| <= i < |Run(env, s, queue).delivered|
    ensures !UnderAny(Run(env, s, queue).delivered[i].absPath, s.pruned)
    decreases |queue|
  {
    var t := Step(env, s, queue[0]);
    var s' := Run(env, t, queue[1..]);
    if i < |t.delivered| {
      assert s'.delivered[i] == MakeEntry(env.root, queue[0]);
    } else {
      PrunedNeverDelivered(env, t, queue[1..], i);
      if UnderAny(s'.delivered[i].absPath, s.pruned) {
        UnderAnyMonotone(s'.delivered[i].absPath, s.pruned, t.pruned);
      }
    }
  }

  /**
    Once a directory is pruned, no descendant dequeued later reaches the
    callback: for a walk processing `q1` then `q2`, nothing delivered during
    `q2` lies under what `q1` pruned.
   */
  lemma PrunedSubtreeShielded<T>(env: Env<T>, q1: seq<Path>, q2: seq<Path>, dir: Path, p: Path)
    requires dir in Run(env, Init<T>(), q1).pruned
    requires StartsWith(p, dir)
    ensures var mid := Run(env, Init<T>(), q1);
      var fin := Run(env, Init<T>(), q1 + q2);
      forall i :: |mid.delivered| <= i < |fin.delivered| ==> fin.delivered[i].absPath != p
  {
    var mid := Run(env, Init<T>(), q1);
    RunSplit(env, Init<T>(), q1, q2);
    var fin := Run(env, mid, q2);
    forall i | |mid.delivered| <= i < |fin.delivered|
      ensures fin.delivered[i].absPath != p
    {
      PrunedNeverDelivered(env, mid, q2, i);
      assert UnderAny(p, mid.pruned);
    }
  }

  /** After an abort the state never changes again: no callback, no prune, no item. */
  lemma NoCallbackAfterAbort<T>(env: Env<T>, s: State<T>, queue: seq<Path>)
    requires Reachable(env, s) && s.abort
    ensures Run(env, s, queue) == s
  {
  }

  /**
    The entry on which the callback answers `Abort` is the last one it ever
    sees, and its item, if any, is not sent.
   */
  lemma AbortIsFinal<T>(env: Env<T>, queue: seq<Path>, i: nat)
    requires var d := Run(env, Init<T>(), queue).delivered;
      i < |d| && ResultAt(env, d, i).decision == Abort
    ensures var s := Run(env, Init<T>(), queue);
      && i == |s.delivered| - 1 && s.abort && s.phase == Stopped(AbortDecided)
      && s.emitted == Oks(Outputs(env, s.delivered))
  {
    InitReachable(env);
    RunReachable(env, Init<T>(), queue);
  }

  /**
    The output queue receives the callback's items for the processed,
    non-aborting entries, wrapped as `Ok`, in delivery order; a `SkipDescend`
    with an item still sends it. Only if the receiver has gone does the
    sequence miss one item, the last one, whose send failed.
   */
  lemma EmittedAreOutputs<T>(env: Env<T>, queue: seq<Path>)
    ensures var s := Run(env, Init<T>(), queue);
      var outs := Outputs(env, s.delivered);
      && (s.phase != Stopped(ReceiverClosed) ==> s.emitted == Oks(outs))
      && (s.phase == Stopped(ReceiverClosed) ==>
            |outs| == |s.emitted| + 1 && s.emitted == Oks(outs[..|s.emitted|]))
  {
    InitReachable(env);
    RunReachable(env, Init<T>(), queue);
  }

  /** Every entry shown to the callback has its metadata unset and its path made relative to the root. */
  lemma DeliveredEntriesWellFormed<T>(env: Env<T>, queue: seq<Path>)
    ensures var d := Run(env, Init<T>(), queue).delivered;
      forall i :: 0 <= i < |d| ==>
        d[i].metadata.None? && d[i].relPath == RelPath(d[i].absPath, env.root)
  {
    InitReachable(env);
    RunReachable(env, Init<T>(), queue);
  }

  /** The callback sees the dequeued paths in dequeue order, some of them skipped. */
  lemma {:induction false} DeliveredInQueueOrder<T>(env: Env<T>, s: State<T>, queue: seq<Path>)
    ensures var s' := Run(env, s, queue);
      IsSubseq(AbsPaths(s'.delivered[|s.delivered|..]), queue)
    decreases |queue|
  {
    var s' := Run(env, s, queue);
    if |queue| == 0 || s.phase != Running {
      assert s'.delivered[|s.delivered|..] == [];
    } else {
      var t := Step(env, s, queue[0]);
      DeliveredInQueueOrder(env, t, queue[1..]);
      var tail := AbsPaths(s'.delivered[|t.delivered|..]);
      if |t.delivered| == |s.delivered| {
        assert s'.delivered[|s.delivered|..] == s'.delivered[|t.delivered|..];
      } else {
        var a := AbsPaths(s'.delivered[|s.delivered|..]);
        assert t.delivered[|s.delivered|].absPath == queue[0];
        assert a[0] == queue[0];
        assert a[1..] == tail;
      }
    }
  }

  /**
    What happens to the `i`-th dequeued path, judged against the state the
    loop was in when it dequeued it: if the loop was still running, the path
    reaches the callback, as the next delivered entry, exactly when the abort
    flag was clear and it lay under no prefix pruned so far; otherwise nothing
    is delivered for it. A loop that had stopped does nothing more.
   */
  lemma DequeueOutcome<T>(env: Env<T>, s: State<T>, queue: seq<Path>, i: nat)
    requires i < |queue|
    ensures var pre := Run(env, s, queue[..i]);
      var post := Run(env, s, queue[..i + 1]);
      && (pre.phase != Running ==> post == pre)
      && (pre.phase == Running && !pre.abort && !UnderAny(queue[i], pre.pruned) ==>
            post.delivered == pre.delivered + [MakeEntry(env.root, queue[i])])
      && (pre.phase == Running && (pre.abort || UnderAny(queue[i], pre.pruned)) ==>
            post.delivered == pre.delivered)
  {
    assert queue[..i + 1] == queue[..i] + [queue[i]];
    RunSplit(env, s, queue[..i], [queue[i]]);
    var pre := Run(env, s, queue[..i]);
    if pre.phase == Running {
      assert Run(env, pre, [queue[i]]) == Run(env, Step(env, pre, queue[i]), []);
    }
  }
}

=== FILE: decisions.dfy ===
/** What the callback returns for an entry: a decision and an optional item to emit. */
module Decisions {
  import opened Wrappers

  /** `WalkDecision`. */
  datatype WalkDecision =
    | Continue      // keep walking
    | SkipDescend   // prune everything below this entry
    | Abort         // stop the whole walk

  /** `CbResult<T>`. */
  datatype CbResult<T> = CbResult(decision: WalkDecision, output: Option<T>)

  /** `CbResult::cont()`. */
  function Cont<T>(): CbResult<T> { CbResult(Continue, None) }

  /** `CbResult::skip()`. */
  function Skip<T>(): CbResult<T> { CbResult(SkipDescend, None) }

  /** `CbResult::abort()`. */
  function AbortResult<T>(): CbResult<T> { CbResult(Abort, None) }

  /** `CbResult::emit(item)`. */
  function Emit<T>(item: T): CbResult<T> { CbResult(Continue, Some(item)) }

  /**
    The four constructors cover every result the callback can build except a
    prune or abort that also emits: `cont`, `skip` and `abort` carry no output
    and differ in their decision, and `emit` is `Continue` with the item.
   */
  lemma ConstructorsSpec<T>(r: CbResult<T>)
    ensures r.output.None? ==>
      (r == Cont() <==> r.decision == Continue)
      && (r == Skip() <==> r.decision == SkipDescend)
      && (r == AbortResult() <==> r.decision == Abort)
    ensures (exists x: T :: r == Emit(x)) <==> r.decision == Continue && r.output.Some?
  {
    if r.decision == Continue && r.output.Some? {
      assert r == Emit(r.output.value);
    }
  }
}

=== FILE: options.dfy ===
/**
  Walk options and the values `walk_dir_stream` derives from them before any
  thread starts: the coerced concurrency, the optional depth bound, the
  scanner's thread count and the capacities of the two bounded queues.
 */
module Options {
  import opened Wrappers
  import opened Builder

  /** The largest `usize`; the model fixes a 64-bit `usize`. */
  const USIZE_MAX: int := 0xFFFF_FFFF_FFFF_FFFF

  /** Rust's `usize`. */
  newtype usize = x: int | 0 <= x <= USIZE_MAX

  /** Output queue slots per unit of concurrency. */
  const OUT_FACTOR: usize := 4
  /** Path queue slots per unit of concurrency. */
  const IN_FACTOR: usize := 16

  /** `WalkOptions`: depth bound (`usize::MAX` = none), hidden policy, parallelism, worker count. */
  datatype WalkOptions = WalkOptions(
    depth: usize,
    includeHidden: bool,
    parallelizeRecursion: bool,
    maxConcurrency: usize)

  /** The settings handed to the ignore-aware scanner. */
  datatype ScanConfig = ScanConfig(
    filters: Filters,           // after the setter chain
    maxDepth: Option<usize>,    // None = unbounded
    threads: usize)

  /** Everything the walk derives from its options before starting. */
  datatype WalkPlan = WalkPlan(
    options: WalkOptions,       // with maxConcurrency already coerced
    scan: ScanConfig,
    outCapacity: usize,
    inCapacity: usize)

  /** `WalkOptions::default()`. */
  function DefaultOptions(): WalkOptions {
    WalkOptions(USIZE_MAX as usize, true, true, 8)
  }

  /** The first statement of `walk_dir_stream`: a concurrency of 0 is taken as 1. */
  function Normalize(opts: WalkOptions): (r: WalkOptions)
    ensures r.maxConcurrency >= 1
    ensures opts.maxConcurrency == 0 ==> r.maxConcurrency == 1
    ensures opts.maxConcurrency != 0 ==> r.maxConcurrency == opts.maxConcurrency
    ensures r.depth == opts.depth && r.includeHidden == opts.includeHidden
    ensures r.parallelizeRecursion == opts.parallelizeRecursion
  {
    if opts.maxConcurrency == 0 then opts.(maxConcurrency := 1) else opts
  }

  /** The depth bound passed to the scanner: `usize::MAX` means unbounded. */
  function MaxDepth(depth: usize): (r: Option<usize>)
    ensures r.None? <==> depth as int == USIZE_MAX
    ensures r.Some? ==> r.value == depth
  {
    if depth as int == USIZE_MAX then None else Some(depth)
  }

  /** Worker threads: the concurrency when parallel, one otherwise. */
  function Threads(opts: WalkOptions): (r: usize)
    ensures opts.parallelizeRecursion ==> r == opts.maxConcurrency
    ensures !opts.parallelizeRecursion ==> r == 1
  {
    if opts.parallelizeRecursion then opts.maxConcurrency else 1
  }

  /**
    `max_concurrency * factor` in `usize` arithmetic. An overflow panics (a
    checked build), so the walk never starts: that is `None`.
   */
  function Capacity(maxConcurrency: usize, factor: usize): (r: Option<usize>)
    ensures r.Some? <==> maxConcurrency as int * factor as int <= USIZE_MAX
    ensures r.Some? ==> r.value as int == maxConcurrency as int * factor as int
  {
    var c := maxConcurrency as int * factor as int;
    if c <= USIZE_MAX then Some(c as usize) else None
  }

  /**
    The whole set-up of `walk_dir_stream` up to the creation of the two
    queues: it succeeds exactly when both capacities fit in a `usize`, and a
    plan always has at least one worker thread, non-empty queues and hidden
    entries filtered out.
   */
  function Plan(opts: WalkOptions): (r: Option<WalkPlan>)
    ensures r.Some? <==> Normalize(opts).maxConcurrency as int * 16 <= USIZE_MAX
    ensures r.Some? ==> r.value.scan.threads >= 1 && r.value.outCapacity >= 4 && r.value.inCapacity >= 16
    ensures r.Some? ==> r.value.scan.filters.hidden
  {
    var o := Normalize(opts);
    var out := Capacity(o.maxConcurrency, OUT_FACTOR);
    var inp := Capacity(o.maxConcurrency, IN_FACTOR);
    if out.None? || inp.None? then None
    else Some(WalkPlan(o, ScanConfig(ConfigureAsWritten(o.includeHidden), MaxDepth(o.depth), Threads(o)), out.value, inp.value))
  }

  /** A plan exists exactly when the larger queue's capacity fits in a `usize`. */
  lemma PlanDefinedIff(opts: WalkOptions)
    ensures Plan(opts).Some? <==> Normalize(opts).maxConcurrency as int * 16 <= USIZE_MAX
  {
  }

  /**
    Every derived value of a plan, in terms of the options it came from:
    coerced concurrency, depth mapping, filters (hidden entries always
    skipped), thread count and queue capacities, all positive.
   */
  lemma PlanSpec(opts: WalkOptions)
    requires Plan(opts).Some?
    ensures var p := Plan(opts).value;
      && p.options.maxConcurrency >= 1
      && p.options.maxConcurrency == (if opts.maxConcurrency == 0 then 1 else opts.maxConcurrency)
      && (p.scan.maxDepth.None? <==> opts.depth as int == USIZE_MAX)
      && (p.scan.maxDepth.Some? ==> p.scan.maxDepth.value == opts.depth)
      && p.scan.filters.hidden
      && p.scan.filters == ConfigureAsWritten(opts.includeHidden)
      && p.scan.threads >= 1
      && p.scan.threads == (if opts.parallelizeRecursion then p.options.maxConcurrency else 1)
      && p.outCapacity as int == 4 * p.options.maxConcurrency as int
      && p.inCapacity as int == 16 * p.options.maxConcurrency as int
      && p.outCapacity >= 4 && p.inCapacity >= 16
  {
  }

  /** A concurrency of 0 behaves identically to a concurrency of 1. */
  lemma ZeroConcurrencyIsOne(opts: WalkOptions)
    ensures Plan(opts.(maxConcurrency := 0)) == Plan(opts.(maxConcurrency := 1))
  {
  }

  /** Normalising twice is normalising once. */
  lemma NormalizeIdempotent(opts: WalkOptions)
    ensures Normalize(Normalize(opts)) == Normalize(opts)
  {
  }

  /**
    The defaults: unbounded depth, hidden entries asked for (though the
    scanner still skips them), parallel with 8 threads, queues of 32 and 128.
   */
  lemma DefaultPlan()
    ensures DefaultOptions().depth as int == USIZE_MAX
    ensures DefaultOptions().includeHidden && DefaultOptions().parallelizeRecursion
    ensures Plan(DefaultOptions()).Some? && Plan(DefaultOptions()).value.scan.filters.hidden
    ensures Plan(DefaultOptions())
         == Some(WalkPlan(DefaultOptions(), ScanConfig(ConfigureAsWritten(true), None, 8), 32, 128))
  {
  }
}

=== FILE: paths.dfy ===
/**
  Paths as sequences of components, and the two `std::path` operations the
  walker relies on: `Path::starts_with`, which compares whole components, and
  `Path::strip_prefix`, which the consumer uses to build the root-relative path.
 */
module Paths {
  import opened Wrappers

  /** One path component, e.g. `"src"`; the root directory is its own component. */
  type Component = string

  /** A path, already split into its components. */
  type Path = seq<Component>

  /** `p.starts_with(prefix)`: every component of `prefix` matches, in order. */
  predicate StartsWith(p: Path, prefix: Path) {
    |prefix| <= |p| && p[..|prefix|] == prefix
  }

  /** `p.strip_prefix(prefix)`: the remaining components, or failure when `prefix` is not a prefix. */
  function StripPrefix(p: Path, prefix: Path): (r: Option<Path>)
    ensures r.Some? <==> StartsWith(p, prefix)
    ensures r.Some? ==> prefix + r.value == p
  {
    if StartsWith(p, prefix) then Some(p[|prefix|..]) else None
  }

  /** `abs.strip_prefix(root).unwrap_or(abs)`: the path shown to the callback as `rel_path`. */
  function RelPath(abs: Path, root: Path): Path {
    match StripPrefix(abs, root)
    case Some(rel) => rel
    case None => abs
  }

  /** The pruned-set test `set.iter().any(|p| path.starts_with(p))`. */
  predicate UnderAny(p: Path, pruned: set<Path>) {
    exists q :: q in pruned && StartsWith(p, q)
  }

  /**
    The linear scan over the pruned set that both producer and consumer run
    under the read lock; it answers exactly the membership question above.
   */
  method AnyPrefix(p: Path, pruned: set<Path>) returns (found: bool)
    ensures found <==> UnderAny(p, pruned)
  {
    var rest := pruned;
    found := false;
    while rest != {}
      invariant rest <= pruned
      invariant !found ==> forall q :: q in pruned - rest ==> !StartsWith(p, q)
      invariant found ==> UnderAny(p, pruned)
      decreases |rest|
    {
      var q :| q in rest;
      if StartsWith(p, q) {
        found := true;
        return;
      }
      rest := rest - {q};
    }
  }

  /** Joining a relative path onto a prefix and stripping it again gives the relative path back. */
  lemma StripAfterJoin(prefix: Path, rel: Path)
    ensures StripPrefix(prefix + rel, prefix) == Some(rel)
  {
    assert (prefix + rel)[..|prefix|] == prefix;
    assert (prefix + rel)[|prefix|..] == rel;
  }

  /**
    `rel_path` is `abs` with the root's components removed when the root is a
    component prefix of `abs`, and `abs` unchanged otherwise.
   */
  lemma RelPathSpec(abs: Path, root: Path)
    ensures StartsWith(abs, root) ==> root + RelPath(abs, root) == abs
    ensures StartsWith(abs, root) ==> |RelPath(abs, root)| == |abs| - |root|
    ensures !StartsWith(abs, root) ==> RelPath(abs, root) == abs
  {
  }

  /** An immediate child of the root has a one-component relative path. */
  lemma RelPathOfChild(root: Path, name: Component)
    ensures RelPath(root + [name], root) == [name]
  {
    StripAfterJoin(root, [name]);
  }

  /**
    `starts_with` matches whole components: a path that agrees with `q` up to
    `q`'s last component and differs there does not start with `q`, even when
    `q`'s last component is a textual prefix of the path's.
   */
  lemma ComponentMismatch(p: Path, q: Path)
    requires 0 < |q| <= |p|
    requires p[..|q| - 1] == q[..|q| - 1]
    requires p[|q| - 1] != q[|q| - 1]
    ensures !StartsWith(p, q)
  {
    assert p[..|q|][|q| - 1] == p[|q| - 1];
  }

  /** The instance `/a/bc` against `/a/b`, next to `/a/b/c`, which does start with `/a/b`. */
  lemma ComponentWiseNotTextual()
    ensures !StartsWith(["/", "a", "bc"], ["/", "a", "b"])
    ensures StartsWith(["/", "a", "b", "c"], ["/", "a", "b"])
  {
    ComponentMismatch(["/", "a", "bc"], ["/", "a", "b"]);
  }

  /** A path below a path below a pruned prefix is itself below that prefix. */
  lemma UnderAnyDescendant(p: Path, child: Path, pruned: set<Path>)
    requires UnderAny(p, pruned)
    requires StartsWith(child, p)
    ensures UnderAny(child, pruned)
  {
    var q :| q in pruned && StartsWith(p, q);
    assert child[..|q|] == p[..|q|];
    assert StartsWith(child, q);
  }

  /** Growing the pruned set never un-prunes a path. */
  lemma UnderAnyMonotone(p: Path, pruned: set<Path>, pruned': set<Path>)
    requires pruned <= pruned'
    requires UnderAny(p, pruned)
    ensures UnderAny(p, pruned')
  {
    var q :| q in pruned && StartsWith(p, q);
    assert q in pruned';
  }

  /** Adding `dir` to the pruned set prunes exactly the old members' descendants plus `dir`'s own. */
  lemma UnderAnyInsert(p: Path, pruned: set<Path>, dir: Path)
    ensures UnderAny(p, pruned + {dir}) <==> UnderAny(p, pruned) || StartsWith(p, dir)
  {
    if StartsWith(p, dir) {
      assert dir in pruned + {dir};
    }
    if UnderAny(p, pruned) {
      UnderAnyMonotone(p, pruned, pruned + {dir});
    }
  }
}

=== FILE: producer.dfy ===
/**
  The scanner's per-entry visitor: given what the scanner produced for one
  entry and the shared state as this worker sees it, decide whether the walk
  goes on and which path, if any, enters the path queue.
 */
module Producer {
  import opened Wrappers
  import opened Paths
  import opened Sequences

  /** `ignore::WalkState` as the visitor uses it. */
  datatype WalkState = Continue | Quit

  /** One item from the scanner: a readable entry, or a per-entry error. */
  datatype ScanItem = Entry(path: Path) | ScanError

  /** What one visitor call does: its verdict and the path it put on the queue. */
  datatype Visit = Visit(state: WalkState, sent: Option<Path>)

  /**
    One call of the visitor closure. `abort` and `pruned` are this worker's
    reading of the shared flag and set; `sendOk` is whether `blocking_send`
    succeeded, i.e. the consumer still holds the receiving end.
   */
  function VisitEntry(abort: bool, item: ScanItem, pruned: set<Path>, root: Path, sendOk: bool): (v: Visit)
    ensures abort ==> v == Visit(Quit, None)
    ensures !abort && item.ScanError? ==> v == Visit(Continue, None)
    ensures v.sent.Some? ==>
      && !abort && item.Entry? && v.sent.value == item.path
      && !UnderAny(item.path, pruned) && item.path != root && sendOk
    ensures !abort && item.Entry? && !UnderAny(item.path, pruned) && item.path != root ==>
      v == (if sendOk then Visit(Continue, Some(item.path)) else Visit(Quit, None))
    ensures v.state == Quit <==>
      abort || (item.Entry? && !UnderAny(item.path, pruned) && item.path != root && !sendOk)
  {
    if abort then Visit(Quit, None)
    else match item
      case ScanError => Visit(Continue, None)
      case Entry(path) =>
        if UnderAny(path, pruned) then Visit(Continue, None)
        else if path == root then Visit(Continue, None)
        else if !sendOk then Visit(Quit, None)
        else Visit(Continue, Some(path))
  }

  /**
    One visitor call as it happened in some run of the scanner's worker pool:
    the inputs it saw, each with its own, possibly stale, snapshot of the
    shared flag and set.
   */
  datatype VisitCall = VisitCall(abort: bool, item: ScanItem, pruned: set<Path>, sendOk: bool)

  /**
    The path queue's contents after a sequence of visitor calls, in the order
    they happened; any interleaving of the worker threads is one such sequence.
    The queue is the scanned non-root paths in scan order with some left out,
    so no scanned path is queued more often than it was scanned.
   */
  function Enqueued(root: Path, calls: seq<VisitCall>): (q: seq<Path>)
    ensures |q| <= |calls|
    ensures forall i :: 0 <= i < |q| ==> q[i] != root
    ensures forall i :: 0 <= i < |q| ==> exists j :: 0 <= j < |calls| && calls[j].item == Entry(q[i])
    ensures IsSubseq(q, Scanned(root, calls))
  {
    if |calls| == 0 then []
    else
      var c := calls[|calls| - 1];
      var v := VisitEntry(c.abort, c.item, c.pruned, root, c.sendOk);
      var q := Enqueued(root, calls[..|calls| - 1]);
      var scanned := Scanned(root, calls[..|calls| - 1]);
      if v.sent.Some? then
        SubseqSnocBoth(q, scanned, v.sent.value);
        q + [v.sent.value]
      else if c.item.Entry? && c.item.path != root then
        SubseqSnocRight(q, scanned, c.item.path);
        q
      else
        assert Scanned(root, calls) == scanned + [];
        assert scanned + [] == scanned;
        q
  }

  /**
    With no abort seen, no send failure and nothing pruned, the queue holds
    exactly the scanned paths other than the root, in scan order.
   */
  lemma {:induction false} EnqueuedAllWhenUndisturbed(root: Path, calls: seq<VisitCall>)
    requires forall i :: 0 <= i < |calls| ==> !calls[i].abort && calls[i].sendOk && calls[i].pruned == {}
    ensures Enqueued(root, calls) == Scanned(root, calls)
  {
    if |calls| > 0 {
      EnqueuedAllWhenUndisturbed(root, calls[..|calls| - 1]);
      var c := calls[|calls| - 1];
      if c.item.Entry? {
        assert !UnderAny(c.item.path, {});
      }
    }
  }

  /** Reference definition: the non-root entry paths among the scanner's items. */
  function Scanned(root: Path, calls: seq<VisitCall>): seq<Path> {
    if |calls| == 0 then []
    else
      var c := calls[|calls| - 1];
      Scanned(root, calls[..|calls| - 1])
        + (if c.item.Entry? && c.item.path != root then [c.item.path] else [])
  }
}

=== FILE: sequences.dfy ===
/** Subsequences: what is left of a sequence after deleting some of its elements, order kept. */
module Sequences {

  /** `a` can be obtained from `b` by deleting elements. */
  predicate IsSubseq<X(==)>(a: seq<X>, b: seq<X>)
    decreases |b|
  {
    if |a| == 0 then true
    else if |b| == 0 then false
    else (a[0] == b[0] && IsSubseq(a[1..], b[1..])) || IsSubseq(a, b[1..])
  }

  /** Everything in a subsequence occurs in the whole. */
  lemma {:induction false} SubseqMembers<X>(a: seq<X>, b: seq<X>, x: X)
    requires IsSubseq(a, b) && x in a
    ensures x in b
    decreases |b|
  {
    if a[0] == b[0] && IsSubseq(a[1..], b[1..]) {
      if x != a[0] {
        SubseqMembers(a[1..], b[1..], x);
      }
    } else {
      SubseqMembers(a, b[1..], x);
      var k :| 0 <= k < |b[1..]| && b[1..][k] == x;
      assert b[k + 1] == x;
    }
  }

  /** Appending to the whole keeps a subsequence. */
  lemma {:induction false} SubseqSnocRight<X>(a: seq<X>, b: seq<X>, x: X)
    requires IsSubseq(a, b)
    ensures IsSubseq(a, b + [x])
    decreases |b|
  {
    if |a| > 0 {
      assert (b + [x])[1..] == b[1..] + [x];
      if a[0] == b[0] && IsSubseq(a[1..], b[1..]) {
        SubseqSnocRight(a[1..], b[1..], x);
      } else {
        SubseqSnocRight(a, b[1..], x);
      }
    }
  }

  /** Appending the same element to both keeps a subsequence. */
  lemma {:induction false} SubseqSnocBoth<X>(a: seq<X>, b: seq<X>, x: X)
    requires IsSubseq(a, b)
    ensures IsSubseq(a + [x], b + [x])
    decreases |b|
  {
    if |b| == 0 {
      assert a + [x] == [x] && b + [x] == [x];
      assert IsSubseq([x][1..], [x][1..]);
    } else {
      assert (b + [x])[1..] == b[1..] + [x];
      if |a| == 0 {
        SubseqSnocBoth(a, b[1..], x);
      } else {
        assert (a + [x])[1..] == a[1..] + [x];
        if a[0] == b[0] && IsSubseq(a[1..], b[1..]) {
          SubseqSnocBoth(a[1..], b[1..], x);
        } else {
          SubseqSnocBoth(a, b[1..], x);
        }
      }
    }
  }

  /** A subsequence of a subsequence is a subsequence. */
  lemma {:induction false} SubseqTrans<X>(a: seq<X>, b: seq<X>, c: seq<X>)
    requires IsSubseq(a, b) && IsSubseq(b, c)
    ensures IsSubseq(a, c)
    decreases |c|
  {
    if |a| > 0 {
      if b[0] == c[0] && IsSubseq(b[1..], c[1..]) {
        if a[0] == b[0] && IsSubseq(a[1..], b[1..]) {
          SubseqTrans(a[1..], b[1..], c[1..]);
        } else {
          SubseqTrans(a, b[1..], c[1..]);
        }
      } else {
        SubseqTrans(a, b, c[1..]);
      }
    }
  }
}

=== FILE: walk.dfy ===
/**
  `walk_dir_stream` and `walk_dir` end to end: the options are normalised, the
  root is resolved, the scanner's visitor calls fill the path queue, and the
  consumer loop drains it.
 */
module Walk {
  import opened Wrappers
  import opened Paths
  import opened Decisions
  import opened Options
  import opened Producer
  import opened Consumer
  import opened ConsumerProps
  import opened Sequences

  /** The walk root: the canonical path when `canonicalize` succeeds, the path as given otherwise. */
  function RootAbs(root: Path, canonical: Option<Path>): (r: Path)
    ensures canonical.Some? ==> r == canonical.value
    ensures canonical.None? ==> r == root
  {
    match canonical
    case Some(c) => c
    case None => root
  }

  /** A started walk: its plan, its resolved root, and the consumer's final state. */
  datatype Walk<T> = Walk(plan: WalkPlan, root: Path, queue: seq<Path>, final: State<T>)

  /**
    `walk_dir_stream`. `canonical` is what `canonicalize` returned; `calls` is
    the visitor calls of the worker pool in the order they happened. `None`
    means set-up panicked (a queue capacity overflowed `usize`).
   */
  function WalkDirStream<T>(
    root: Path, canonical: Option<Path>, opts: WalkOptions, calls: seq<VisitCall>,
    callback: (seq<WalkEntry>, WalkEntry) -> CbResult<T>,
    metadata: Path -> MetaLookup, sendOk: nat -> bool): (w: Option<Walk<T>>)
    ensures w.Some? <==> Plan(opts).Some?
    ensures w.Some? ==> w.value.plan == Plan(opts).value && w.value.root == RootAbs(root, canonical)
  {
    match Plan(opts)
    case None => None
    case Some(plan) =>
      var r := RootAbs(root, canonical);
      var q := Enqueued(r, calls);
      Some(Walk(plan, r, q, Run(Env(r, callback, metadata, sendOk), Init(), q)))
  }

  /** The walk root itself is never shown to the callback, whatever the schedule. */
  lemma RootNeverDelivered<T>(
    root: Path, canonical: Option<Path>, opts: WalkOptions, calls: seq<VisitCall>,
    callback: (seq<WalkEntry>, WalkEntry) -> CbResult<T>,
    metadata: Path -> MetaLookup, sendOk: nat -> bool)
    requires Plan(opts).Some?
    ensures var w := WalkDirStream(root, canonical, opts, calls, callback, metadata, sendOk).value;
      forall i :: 0 <= i < |w.final.delivered| ==> w.final.delivered[i].absPath != w.root
  {
    var w := WalkDirStream(root, canonical, opts, calls, callback, metadata, sendOk).value;
    var env := Env(w.root, callback, metadata, sendOk);
    DeliveredInQueueOrder(env, Init<T>(), w.queue);
    var paths := AbsPaths(w.final.delivered);
    assert w.final.delivered[0..] == w.final.delivered;
    forall i | 0 <= i < |w.final.delivered|
      ensures w.final.delivered[i].absPath != w.root
    {
      assert paths[i] in paths;
      SubseqMembers(paths, w.queue, paths[i]);
    }
  }

  /** `items[i]` is an error and nothing before it is. */
  predicate FirstErrorAt<T>(items: seq<Result<T, WalkError>>, i: int) {
    0 <= i < |items| && items[i].Err? && forall j :: 0 <= j < i ==> items[j].Ok?
  }

  /**
    The callback sees the scanner's non-root paths in scan order, each at most
    once per time it was scanned, some of them left out.
   */
  lemma DeliveredSubseqScanned<T>(
    root: Path, canonical: Option<Path>, opts: WalkOptions, calls: seq<VisitCall>,
    callback: (seq<WalkEntry>, WalkEntry) -> CbResult<T>,
    metadata: Path -> MetaLookup, sendOk: nat -> bool)
    requires Plan(opts).Some?
    ensures var w := WalkDirStream(root, canonical, opts, calls, callback, metadata, sendOk).value;
      IsSubseq(AbsPaths(w.final.delivered), Scanned(w.root, calls))
  {
    var w := WalkDirStream(root, canonical, opts, calls, callback, metadata, sendOk).value;
    DeliveredInQueueOrder(Env(w.root, callback, metadata, sendOk), Init<T>(), w.queue);
    assert w.final.delivered[0..] == w.final.delivered;
    SubseqTrans(AbsPaths(w.final.delivered), w.queue, Scanned(w.root, calls));
  }

  /** The first error on a result stream, or success when there is none. */
  function FirstError<T>(items: seq<Result<T, WalkError>>): (r: Result<(), WalkError>)
    ensures r.Err? <==> exists i :: 0 <= i < |items| && items[i].Err?
    ensures r.Err? ==> exists i :: FirstErrorAt(items, i) && items[i] == Err(r.error)
    ensures r.Ok? ==> r == Ok(())
  {
    if |items| == 0 then Ok(())
    else if items[0].Err? then Err(items[0].error)
    else
      var r := FirstError(items[1..]);
      assert forall i :: 1 <= i < |items| ==> items[i] == items[1..][i - 1];
      assert forall k :: FirstErrorAt(items[1..], k) ==> FirstErrorAt(items, k + 1);
      r
  }

  /**
    `walk_dir`: run the walk, discard every item, and fail with the first
    error read off the stream. `None` is a set-up panic, as for the stream.
   */
  function WalkDir(
    root: Path, canonical: Option<Path>, opts: WalkOptions, calls: seq<VisitCall>,
    callback: (seq<WalkEntry>, WalkEntry) -> CbResult<()>,
    metadata: Path -> MetaLookup, sendOk: nat -> bool): (r: Option<Result<(), WalkError>>)
    ensures r.Some? <==> Plan(opts).Some?
  {
    match WalkDirStream(root, canonical, opts, calls, callback, metadata, sendOk)
    case None => None
    case Some(w) => Some(FirstError(w.final.emitted))
  }

  /** The consumer sends only `Ok` items, so a started `walk_dir` always succeeds. */
  lemma WalkDirSucceeds(
    root: Path, canonical: Option<Path>, opts: WalkOptions, calls: seq<VisitCall>,
    callback: (seq<WalkEntry>, WalkEntry) -> CbResult<()>,
    metadata: Path -> MetaLookup, sendOk: nat -> bool)
    requires Plan(opts).Some?
    ensures WalkDir(root, canonical, opts, calls, callback, metadata, sendOk) == Some(Ok(()))
  {
    var w := WalkDirStream(root, canonical, opts, calls, callback, metadata, sendOk).value;
    EmittedAreOutputs(Env(w.root, callback, metadata, sendOk), w.queue);
    assert forall i :: 0 <= i < |w.final.emitted| ==> w.final.emitted[i].Ok?;
  }
}

=== FILE: wrappers.dfy ===
/** The two tagged unions the walker's Rust types map onto. */
module Wrappers {

  /** A value that may be absent, as Rust's `Option<T>`. */
  datatype Option<+T> = None | Some(value: T)

  /** Success or failure, as Rust's `Result<T, E>`; the output stream carries these. */
  datatype Result<+T, +E> = Ok(value: T) | Err(error: E)
}
